=== FILE: README.md ===
# Self-healing cleanup of a hosting platform, modelled in Dafny

This project models the self-healing logic of the master service
(`services/master/cleaner.go`). Periodically the master probes every registered instance
of every service pool. It deregisters the dead ones. When a dead instance belonged to the
application-hosting pool ("AppMaker"), it looks up the applications recorded against that
instance's host and reschedules them onto the least-loaded surviving instances.

The model has four parts, each a Dafny module:

- `Planner` (`planner.dfy`) is the water-filling planner. It works on a snapshot of
  candidate scores and a count `m` of orphaned applications. It raises a `level` and
  charges candidates in prefix scans. It is given three ways: recursive functions `Scan`
  and `Run` that follow the two loops, a closed form of one pass (`PassResult` with
  `FirstAbove`), and the imperative methods `ScanPass`, proved equal to one `Scan` pass,
  and `PlanAllotment`, proved equal to `Run`.
- `Dispatch` (`dispatch.dfy`) is the dispatch walk. The orphaned records are walked in
  input order against the allotments. A record that fails to serialise, or lacks a string
  name, language or owner, is skipped. It has still used up its slot. Every other record
  yields one recreate request (language, owner, URL, serialised bytes).
- `Reschedule` (`reschedule.dfy`) composes the two, behind the early returns of the source:
  no applications, a failed registry read, an empty snapshot.
- `Inspection` (`inspection.dfy`) is the decision `inspectInstance` takes for one instance,
  and the same decision over every instance of a pool.

`Sums` and `Wrappers` are helpers: prefix sums, and `Option`.

The planner does not conserve counts. Its inner scan never re-checks how many applications
remain, so the last pass can charge more candidates than there are applications left to
place. For scores `[2, 3, 5]` and four applications, the allotments are `[3, 2, 0]`. That is
five slots for four applications, with final tracked scores `[5, 5, 5]`. A planner that
stopped as soon as the last application was placed would allot `[3, 1, 0]` here
(`Planner.ThreeLevelsExample`, and `Planner.OvershootExample` for a second input). The walk
then sends three applications to the first candidate and one to the second. The model
states what the code does:

- the allotments sum to `m - remaining`;
- `remaining` ends in `(-k, 0]` for `k` candidates;
- so the sum is at least `m` and less than `m + k`.

The source asks the registry for the least-loaded instances (line 31). The registry's query
is outside this model, and it is presumed to return them in ascending score order. The
truncating conversion of scores to integers (line 44) keeps that order. The model does not
assume the order: every property above, and termination, hold for any snapshot. Only load
levelling needs it (`Planner.Balanced`). With an ascending snapshot, no candidate ends below
the level, and every candidate that received applications ends at most one above every
other candidate.

External collaborators are inputs or outputs:

- the registry's least-loaded snapshot is an `Option<seq<Candidate>>` (None when the read fails);
- the record serialiser is a function `Record -> Option<Bytes>`;
- a probe verdict is a function from probe kind to `bool`;
- the registry removal, the directory lookup and the provisioning call are returned as
  actions or requests.

## Model

| member | source | states |
|---|---|---|
| `Planner.PlanAllotment` | services/master/cleaner.go:43-64 | The planning loops end for every nonempty snapshot and every `m`. For every candidate, final tracked score = snapshot score + allotment. Allotments are non-negative and non-increasing along the candidate order, so zero allotments form a suffix. Candidate 0 gets at least one when `m >= 1`. The level never drops below the first candidate's score. Every charged candidate ends at most one above the final level. The allotments sum to `m - remaining` with `-k < remaining <= 0`: at least `m`, possibly more. For an ascending snapshot, no candidate ends below the level, and every charged candidate ends at most one above every other. The result equals `Run` from the start state. |
| `Planner.ScanPass` | services/master/cleaner.go:54-63 | The inner `for idx` loop with its `break` computes exactly one `Scan` pass from the first candidate. The level is unchanged or one higher. |
| `Planner.FirstAbove` | services/master/cleaner.go:54-58 | Where a pass stops: every candidate before the returned index is at or below the level, and the candidate at it, if any, is above it. |
| `Planner.ScanChargesPrefix` | services/master/cleaner.go:50-63 | Each pass charges a contiguous prefix: exactly the candidates before the first one above the level. Each charged candidate gains one score and one allotment, and `remaining` drops by the prefix length. The level rises by exactly one when the pass breaks, and not at all otherwise. |
| `Planner.PassShrinks` | services/master/cleaner.go:49-64 | Every pass keeps `level <= score[0] <= level + 1`. It strictly shrinks `2*remaining + (score[0] - level)`, so the outer loop terminates. |
| `Planner.PassKeepsAccounted` | services/master/cleaner.go:53-63 | One pass with applications remaining keeps all the accounting facts: per-candidate scores, allotment order, the sum, the level bounds, and the overshoot bound. |
| `Planner.RunKeepsAccounted` | services/master/cleaner.go:49-64 | The whole outer loop keeps the accounting facts and stops with `remaining <= 0`. |
| `Planner.FinishedPlan` | services/master/cleaner.go:49-64 | When the loop stops with `m >= 1`, candidate 0 has a nonzero allotment. |
| `Planner.PassKeepsAscending` | services/master/cleaner.go:53-63 | A pass keeps ascending tracked scores ascending: it charges a prefix at or below the level, and everything after it is above. |
| `Planner.RunKeepsAscending` | services/master/cleaner.go:49-64 | The whole outer loop keeps ascending tracked scores ascending. |
| `Planner.Balanced` | services/master/cleaner.go:18-64 | For a snapshot in ascending score order (the least-loaded query's order), the final tracked scores are levelled: none is below the final level, and every candidate that received applications ends at most one above every other candidate. |
| `Planner.OvershootExample` | services/master/cleaner.go:49-64 | Scores `[0, 1, 1]` with three applications give allotments `[2, 1, 1]`, four slots, and remaining `-1`. |
| `Planner.ThreeLevelsExample` | services/master/cleaner.go:49-64 | Scores `[2, 3, 5]` with four applications give allotments `[3, 2, 0]`, tracked scores `[5, 5, 5]`, level 5 and remaining `-1`. |
| `Dispatch.RequestForSpec` | services/master/cleaner.go:75-98 | A record yields a request exactly when it serialises and has string name, language and owner fields. The request carries that language and owner, the chosen URL and the serialised bytes. |
| `Dispatch.RequestsOfMixedBatch` | services/master/cleaner.go:69-99 | For any batch, well-formed and malformed records mixed, there is exactly one request per well-formed record. The well-formed record `p` yields the request whose position is the number of well-formed records before `p`. It carries that record's language, owner, target URL and bytes. Malformed records take no position. |
| `Dispatch.UseSlot` | services/master/cleaner.go:70-74 | Using up one slot decrements the current candidate's remaining allotment and advances the index at most one. While applications remain, the candidate reached owns the next slot. |
| `Dispatch.Walk` | services/master/cleaner.go:66-99 | Suppose the allotments are non-negative, zero allotments form a suffix, and they sum to at least the number of applications. Then the index stays inside the candidate array for every application. Application `p` goes to the candidate whose slot range holds `p`, on that candidate's URL, whether or not the record is then skipped. Targets are non-decreasing, so candidates are consumed in order. The requests are exactly those of the well-formed records, in input order. |
| `Dispatch.ReceivedWithinAllotment` | services/master/cleaner.go:66-74 | Candidate `c` receives exactly `min(alloc[c], max(0, n - sum of earlier allotments))` of `n` applications, so never more than its allotment. |
| `Dispatch.WalkExample` | services/master/cleaner.go:66-74 | With allotments `[3, 2, 0]` and four applications, the targets are `[0, 0, 0, 1]`: one allotted slot goes unused. |
| `Dispatch.EveryWellFormedRecordDispatched` | services/master/cleaner.go:75-98 | When all records are well-formed, record `p` yields request `p`, carrying its language, owner, target URL and bytes. |
| `Dispatch.MalformedRecordsSkipped` | services/master/cleaner.go:75-91 | A batch in which every record fails to serialise or lacks a string name, language or owner yields no request at all. |
| `Reschedule.RescheduleApplications` | services/master/cleaner.go:19-99 | An empty application list returns before the snapshot is consulted. A failed registry read or an empty snapshot ends with no dispatch. Otherwise the plan is the planner's allotment on the snapshot's scores, summing to at least the application count. Every application gets one in-range slot, in order, and the requests are those of the well-formed records on their slots' URLs. |
| `Reschedule.ThreeLevelsDispatch` | services/master/cleaner.go:49-74 | With scores `[2, 3, 5]` and four applications, the walk over the planned allotments sends three applications to the first candidate, one to the second and none to the third. |
| `Inspection.HostPart` | services/master/cleaner.go:120-124 | The host part is a prefix of the address and contains no `:`. When the address has a `:`, that `:` immediately follows the host part. |
| `Inspection.HostPartIsFirstSegment` | services/master/cleaner.go:124 | The host part is the first segment of the address split on `:`. |
| `Inspection.HostPartRoundTrip` | services/master/cleaner.go:120-124 | An address with a `:` is its host part, followed by `:`, followed by the rest. |
| `Inspection.Inspect` | services/master/cleaner.go:104-131 | A live instance causes no action. A dead one is removed first, before any address check. A dead instance of the GenDNS pool, or of any pool other than AppMaker, is removed and nothing else happens. A dead AppMaker instance with no `:` stays removed and only the bad address is reported. Otherwise the applications of the first `:`-separated segment are rescheduled. |
| `Inspection.PoolIsolation` | services/master/cleaner.go:134-142 | Inspecting a pool gives every instance the decision of inspecting it alone, from its own address and probe verdict. |

## Left out

- Goroutines, `time.Sleep` and the periodic scheduler (`removeDeadInstances`,
  `ScheduleCleanup`, the `go` statements at lines 98, 128, 140 and 148). Concurrency and
  timing are outside the model. Each inspection and each rescheduling is one sequential call.
- The liveness probes `utils.NotAlive` and `utils.IsGenDNSAlive`. Their verdict is an
  input (`Probe -> bool`).
- The Redis registry and the Mongo directory (`GetLeastLoadedInstancesWithScores`,
  `RemoveServiceInstance`, `FetchAppInfo`, `FetchServiceInstances`). The snapshot and the
  instance list are inputs. Removal and lookup are returned as `Inspection.Action`s. A
  failed removal is only logged in the source, so it changes no decision. Registry
  behaviour such as idempotent removal is not modelled, because the registry is an
  external service outside this model.
- `json.Marshal` is an input function that may fail. Logging is dropped, except for two
  cases. The invalid-address log (line 121) is kept as `Inspection.RejectAddress`. The two
  logged early returns are the outcomes `FetchFailed` and `NoInstances`.
- `factory.CreateApplication` is not called: its arguments are returned as `Dispatch.Request`s.
- A failed instance listing in `removeDeadServiceInstances` (lines 135-138) is only
  logged. The model takes the instance list as given.
- The score conversion `int(instance.Score)` from a floating-point score (line 44) is not
  modelled: scores are integers from the start. Member names are strings from the start
  (`fmt.Sprintf("%v", ...)`, line 46).
- Integer widths: `int64` and `int` are unbounded here. Wrap-around would need more than
  2^63 applications or scores near the limit.
- The pool names `GenDNS` and `AppMaker`, and the record field names, are defined in
  packages that are not part of this model. They appear as named string constants; only
  their distinctness matters.
- Schema-less records (`types.M`) become maps from field name to a string or "something
  else". The only distinction the source makes is whether a field is a string.

=== FILE: dispatch.dfy ===
/** The dispatch walk of `rescheduleApplications` (services/master/cleaner.go, lines
    66-99): the orphaned application records are walked in input order against the
    allotments, each taking the next slot, and every well-formed record yields one
    recreate request for the provisioning service. */
module Dispatch {
  import opened Wrappers
  import opened Sums

  newtype byte = x: int | 0 <= x < 256
  type Bytes = seq<byte>

  /** A field of a schema-less application record: a string, or a value of another kind. */
  datatype Value = Text(text: string) | Other

  /** An application record as the directory returns it: field name to value. */
  type Record = map<string, Value>

  /** Field names of the application directory (their text lives in the directory
      package, which is not part of this model). */
  const NameKey: string := "name"
  const LanguageKey: string := "language"
  const OwnerKey: string := "owner"

  /** A request to recreate one application on a destination instance. */
  datatype Request = Request(language: string, owner: string, url: string, data: Bytes)

  /** The string held under `key`, if the field is present and is a string. */
  function TextField(app: Record, key: string): (field: Option<string>)
  {
    if key in app && app[key].Text? then Some(app[key].text) else None
  }

  /** A record that serialises and carries string name, language and owner fields. */
  ghost predicate WellFormed(app: Record, marshal: Record -> Option<Bytes>)
  {
    && marshal(app).Some?
    && TextField(app, NameKey).Some?
    && TextField(app, LanguageKey).Some?
    && TextField(app, OwnerKey).Some?
  }

  /** The request one record yields on instance `url` (lines 75-98): none when the record
      fails to serialise or lacks a string name, language or owner. */
  function RequestFor(app: Record, url: string, marshal: Record -> Option<Bytes>): (request: Option<Request>)
  {
    match marshal(app)
    case None => None
    case Some(data) =>
      match TextField(app, NameKey)
      case None => None
      case Some(_) =>
        match TextField(app, LanguageKey)
        case None => None
        case Some(language) =>
          match TextField(app, OwnerKey)
          case None => None
          case Some(owner) => Some(Request(language, owner, url, data))
  }

  /** A record yields a request exactly when it is well-formed, and the request carries
      the record's language and owner, the chosen URL and the serialised bytes. */
  lemma RequestForSpec(app: Record, url: string, marshal: Record -> Option<Bytes>)
    ensures RequestFor(app, url, marshal).Some? <==> WellFormed(app, marshal)
    ensures WellFormed(app, marshal) ==>
              RequestFor(app, url, marshal).value
                == Request(app[LanguageKey].text, app[OwnerKey].text, url, marshal(app).value)
  {
  }

  function OptionToSeq<T>(o: Option<T>): (s: seq<T>)
  {
    if o.Some? then [o.value] else []
  }

  /** The values of the `Some` entries of `os`, in order.  The ensures is only a length
      bound; what the entries are is stated by `RequestsOfMixedBatch`. */
  function Somes<T>(os: seq<Option<T>>): (r: seq<T>)
    ensures |r| <= |os|
  {
    if |os| == 0 then [] else Somes(os[..|os| - 1]) + OptionToSeq(os[|os| - 1])
  }

  /** What each record yields when record p is sent to instance `dests[p]`. */
  function Outcomes(apps: seq<Record>, dests: seq<string>, marshal: Record -> Option<Bytes>): (outcomes: seq<Option<Request>>)
    requires |dests| == |apps|
  {
    seq(|apps|, p requires 0 <= p < |apps| => RequestFor(apps[p], dests[p], marshal))
  }

  /** The requests, in input order, that the records `apps` yield when record p is sent
      to instance `dests[p]`: one per well-formed record.  The ensures is only a length
      bound; `RequestsOfMixedBatch` states the count and the contents. */
  function Requests(apps: seq<Record>, dests: seq<string>, marshal: Record -> Option<Bytes>): (r: seq<Request>)
    requires |dests| == |apps|
    ensures |r| <= |apps|
  {
    Somes(Outcomes(apps, dests, marshal))
  }

  /** The requests of a batch are those of all but its last record, then the last
      record's request, if any. */
  lemma RequestsSnoc(apps: seq<Record>, dests: seq<string>, marshal: Record -> Option<Bytes>)
    requires |dests| == |apps| > 0
    ensures var n := |apps| - 1;
            Requests(apps, dests, marshal)
              == Requests(apps[..n], dests[..n], marshal) + OptionToSeq(RequestFor(apps[n], dests[n], marshal))
  {
    var n := |apps| - 1;
    assert Outcomes(apps, dests, marshal)[..n] == Outcomes(apps[..n], dests[..n], marshal);
  }

  /** Walking one more record appends the request it yields, if any. */
  lemma RequestsStep(apps: seq<Record>, dests: seq<string>, url: string, p: nat,
                     marshal: Record -> Option<Bytes>)
    requires p < |apps| && |dests| == p
    ensures Requests(apps[..p + 1], dests + [url], marshal)
         == Requests(apps[..p], dests, marshal) + OptionToSeq(RequestFor(apps[p], url, marshal))
  {
    RequestsSnoc(apps[..p + 1], dests + [url], marshal);
    assert apps[..p + 1][..p] == apps[..p];
    assert (dests + [url])[..p] == dests;
  }

  /** Zero allotments form a suffix: no candidate after one with nothing allotted has
      anything allotted. */
  ghost predicate ZeroSuffix(alloc: seq<int>)
  {
    forall i, j :: 0 <= i < j < |alloc| && alloc[j] > 0 ==> alloc[i] > 0
  }

  /** Slot `p` belongs to candidate `c`. */
  ghost predicate InSlot(alloc: seq<int>, c: nat, p: int)
  {
    c < |alloc| && Sum(alloc[..c]) <= p < Sum(alloc[..c + 1])
  }

  /** Candidates are consumed in order. */
  ghost predicate Ordered(targets: seq<nat>)
  {
    forall p, q :: 0 <= p <= q < |targets| ==> targets[p] <= targets[q]
  }

  /** The history of the walk after |targets| applications, the current candidate being
      `index`: every application went to the candidate owning its slot, in order, on
      that candidate's URL. */
  ghost predicate Walked(alloc: seq<int>, urls: seq<string>, targets: seq<nat>, dests: seq<string>, index: nat)
  {
    && |urls| == |alloc| && |dests| == |targets|
    && Covers(alloc, targets) && Ordered(targets)
    && (forall q :: 0 <= q < |targets| ==> targets[q] <= index)
    && (forall q :: 0 <= q < |targets| ==> targets[q] < |urls| && dests[q] == urls[targets[q]])
  }

  /** Sending the next application to the candidate owning its slot extends the history. */
  lemma ExtendWalk(alloc: seq<int>, urls: seq<string>, targets: seq<nat>, dests: seq<string>,
                   t: nat, index: nat)
    requires Walked(alloc, urls, targets, dests, t)
    requires InSlot(alloc, t, |targets|) && t <= index
    ensures Walked(alloc, urls, targets + [t], dests + [urls[t]], index)
  {
  }

  /** Application p is sent to candidate targets[p], whose slots are the positions from
      the sum of the earlier allotments up to (not including) that sum plus its own. */
  ghost predicate Covers(alloc: seq<int>, targets: seq<nat>)
  {
    forall p :: 0 <= p < |targets| ==> InSlot(alloc, targets[p], p)
  }

  /** When the slots before candidate `index` are exactly the first `p` and more slots
      remain, candidate `index` exists and owns slot `p`. */
  lemma NextSlot(alloc: seq<int>, index: nat, p: nat)
    requires NonNegative(alloc) && ZeroSuffix(alloc)
    requires index <= |alloc| && Sum(alloc[..index]) == p < Sum(alloc)
    ensures InSlot(alloc, index, p) && Sum(alloc[..index + 1]) == p + alloc[index]
  {
    assert alloc[..|alloc|] == alloc;
    var t := SumGrowthHasPositive(alloc, index, |alloc|);
    SumPrefixStep(alloc, index);
  }

  /** Lines 71-74: use up one slot of the current candidate `index`, moving on to the
      next candidate once its allotment is used up.  While applications remain, the
      candidate reached owns the next slot. */
  method UseSlot(alloc: seq<int>, dist: seq<int>, index: nat, p: nat, n: nat)
    returns (dist': seq<int>, index': nat)
    requires NonNegative(alloc) && ZeroSuffix(alloc) && n <= Sum(alloc)
    requires |dist| == |alloc| && p < n
    requires InSlot(alloc, index, p) && dist[index] == Sum(alloc[..index + 1]) - p
    requires forall j :: index < j < |alloc| ==> dist[j] == alloc[j]
    ensures |dist'| == |alloc| && index <= index' <= index + 1 && index' <= |alloc|
    ensures p + 1 < n ==> InSlot(alloc, index', p + 1) && dist'[index'] == Sum(alloc[..index' + 1]) - (p + 1)
    ensures forall j :: index' < j < |alloc| ==> dist'[j] == alloc[j]
  {
    dist' := dist[index := dist[index] - 1];
    index' := index;
    if dist'[index] <= 0 {
      index' := index + 1;
      if p + 1 < n {
        NextSlot(alloc, index', p + 1);
      }
    }
  }

  /** The walk of lines 66-99: for each record in input order, take the current
      candidate's URL, use up one of its slots (moving to the next candidate once the
      allotment is used up), then skip the record if it is malformed.  The slot is used
      up even when the record is skipped. */
  method Walk(apps: seq<Record>, urls: seq<string>, alloc: seq<int>, marshal: Record -> Option<Bytes>)
    returns (requests: seq<Request>, targets: seq<nat>, dests: seq<string>)
    requires |urls| == |alloc|
    requires NonNegative(alloc) && ZeroSuffix(alloc)
    requires |apps| <= Sum(alloc)
    ensures |targets| == |apps|
    ensures Covers(alloc, targets)
    ensures Ordered(targets)
    ensures |dests| == |apps|
    ensures forall p :: 0 <= p < |apps| ==> targets[p] < |urls| && dests[p] == urls[targets[p]]
    ensures requests == Requests(apps, dests, marshal)
  {
    var index := 0;
    var dist := alloc;
    requests := [];
    targets := [];
    dests := [];
    var p := 0;
    if p < |apps| {
      assert alloc[..0] == [];
      NextSlot(alloc, 0, 0);
    }
    while p < |apps|
      invariant 0 <= p <= |apps| && |targets| == p && |dests| == p
      invariant |dist| == |alloc| && 0 <= index <= |alloc|
      invariant p < |apps| ==> InSlot(alloc, index, p) && dist[index] == Sum(alloc[..index + 1]) - p
      invariant forall j :: index < j < |alloc| ==> dist[j] == alloc[j]
      invariant Walked(alloc, urls, targets, dests, index)
      invariant requests == Requests(apps[..p], dests, marshal)
    {
      var instanceURL := urls[index];
      var target := index;
      dist, index := UseSlot(alloc, dist, index, p, |apps|);
      RequestsStep(apps, dests, instanceURL, p, marshal);
      ExtendWalk(alloc, urls, targets, dests, target, index);
      targets := targets + [target];
      dests := dests + [instanceURL];
      // a record that fails to serialise or lacks a string name, language or owner
      // is skipped here, after its slot has been used up
      requests := requests + OptionToSeq(RequestFor(apps[p], instanceURL, marshal));
      p := p + 1;
    }
    assert apps[..p] == apps;
  }

  /** How many of the walked applications went to candidate `c`. */
  function Received(targets: seq<nat>, c: nat): (count: nat)
  {
    if |targets| == 0 then 0
    else Received(targets[..|targets| - 1], c) + (if targets[|targets| - 1] == c then 1 else 0)
  }

  /** Candidate `c` receives its allotment, cut short only when the applications run out:
      exactly min(alloc[c], max(0, n - the sum of earlier allotments)) of the n walked. */
  lemma {:induction false} ReceivedWithinAllotment(alloc: seq<int>, targets: seq<nat>, c: nat)
    requires NonNegative(alloc) && Covers(alloc, targets)
    requires c < |alloc|
    ensures var before := Sum(alloc[..c]);
            Received(targets, c) ==
              if |targets| <= before then 0
              else if |targets| - before >= alloc[c] then alloc[c]
              else |targets| - before
  {
    assert alloc[..0] == [];
    SumPrefixMonotone(alloc, 0, c);
    if |targets| > 0 {
      var n := |targets| - 1;
      var prior := targets[..n];
      assert Covers(alloc, prior) by {
        forall p | 0 <= p < |prior| ensures prior[p] == targets[p] { }
      }
      ReceivedWithinAllotment(alloc, prior, c);
      var t := targets[n];
      SumPrefixStep(alloc, c);
      assert Sum(alloc[..t]) <= n < Sum(alloc[..t + 1]);
      if t < c {
        SumPrefixMonotone(alloc, t + 1, c);
        assert !(Sum(alloc[..c]) <= n);
      } else if t > c {
        SumPrefixMonotone(alloc, c + 1, t);
        assert !(n < Sum(alloc[..c + 1]));
      }
      assert Received(targets, c) == Received(prior, c) + (if t == c then 1 else 0);
    }
  }

  /** With allotments [3, 2, 0] and four applications, the walk sends the first three to
      candidate 0 and the fourth to candidate 1, the extra allotted slot going unused. */
  lemma WalkExample(targets: seq<nat>)
    requires |targets| == 4 && Covers([3, 2, 0], targets)
    ensures targets == [0, 0, 0, 1]
  {
    var a: seq<int> := [3, 2, 0];
    assert a[..0] == [] && a[..1] == [3] && a[..2] == [3, 2] && a[..3] == a;
    assert Sum([3]) == 3 by { assert [3][..0] == []; }
    assert Sum([3, 2]) == 5 by { assert [3, 2][..1] == [3]; }
    assert Sum(a) == 5 by { assert a[..2] == [3, 2]; }
  }

  /** How many of the records `apps` are well-formed. */
  ghost function WellFormedCount(apps: seq<Record>, marshal: Record -> Option<Bytes>): (n: nat)
  {
    if |apps| == 0 then 0
    else WellFormedCount(apps[..|apps| - 1], marshal) + (if WellFormed(apps[|apps| - 1], marshal) then 1 else 0)
  }

  /** Any batch, well-formed and malformed records mixed: there is one request per
      well-formed record, and the well-formed record p yields the request placed after
      those of the well-formed records before it, carrying its language, owner, chosen
      URL and serialised bytes.  Malformed records take no place in the sequence. */
  lemma {:induction false} RequestsOfMixedBatch(apps: seq<Record>, dests: seq<string>,
                                                marshal: Record -> Option<Bytes>)
    requires |dests| == |apps|
    ensures var r := Requests(apps, dests, marshal);
            && |r| == WellFormedCount(apps, marshal)
            && forall p :: 0 <= p < |apps| && WellFormed(apps[p], marshal) ==>
                 var k := WellFormedCount(apps[..p], marshal);
                 k < |r| &&
                 r[k] == Request(TextField(apps[p], LanguageKey).value, TextField(apps[p], OwnerKey).value,
                                 dests[p], marshal(apps[p]).value)
  {
    if |apps| > 0 {
      var n := |apps| - 1;
      var r := Requests(apps, dests, marshal);
      var prior := Requests(apps[..n], dests[..n], marshal);
      RequestsOfMixedBatch(apps[..n], dests[..n], marshal);
      RequestsSnoc(apps, dests, marshal);
      RequestForSpec(apps[n], dests[n], marshal);
      assert |r| == WellFormedCount(apps, marshal);
      forall p | 0 <= p < |apps| && WellFormed(apps[p], marshal)
        ensures WellFormedCount(apps[..p], marshal) < |r|
        ensures r[WellFormedCount(apps[..p], marshal)]
                  == Request(TextField(apps[p], LanguageKey).value, TextField(apps[p], OwnerKey).value,
                             dests[p], marshal(apps[p]).value)
      {
        if p < n {
          assert apps[..n][..p] == apps[..p];
          assert apps[..n][p] == apps[p] && dests[..n][p] == dests[p];
        } else {
          assert apps[..p] == apps[..n];
        }
      }
    }
  }

  /** When every record is well-formed, each yields exactly one request, in input order,
      carrying its language, owner, chosen URL and serialised bytes: the special case of
      `RequestsOfMixedBatch` in which no record is malformed. */
  lemma {:induction false} EveryWellFormedRecordDispatched(apps: seq<Record>, dests: seq<string>,
                                                          marshal: Record -> Option<Bytes>)
    requires |dests| == |apps|
    requires forall p :: 0 <= p < |apps| ==> WellFormed(apps[p], marshal)
    ensures var r := Requests(apps, dests, marshal);
            |r| == |apps| &&
            forall p :: 0 <= p < |apps| ==>
              WellFormed(apps[p], marshal) &&
              r[p] == Request(TextField(apps[p], LanguageKey).value, TextField(apps[p], OwnerKey).value,
                              dests[p], marshal(apps[p]).value)
  {
    if |apps| > 0 {
      var n := |apps| - 1;
      EveryWellFormedRecordDispatched(apps[..n], dests[..n], marshal);
      RequestsSnoc(apps, dests, marshal);
    }
  }

  /** A batch in which no record is well-formed yields no request at all: the special
      case of `RequestsOfMixedBatch` in which every record is malformed. */
  lemma {:induction false} MalformedRecordsSkipped(apps: seq<Record>, dests: seq<string>,
                                                  marshal: Record -> Option<Bytes>)
    requires |dests| == |apps|
    requires forall p :: 0 <= p < |apps| ==> !WellFormed(apps[p], marshal)
    ensures Requests(apps, dests, marshal) == []
  {
    if |apps| > 0 {
      var n := |apps| - 1;
      MalformedRecordsSkipped(apps[..n], dests[..n], marshal);
      RequestsSnoc(apps, dests, marshal);
    }
  }
}

=== FILE: inspection.dfy ===
/** The inspection decision of `inspectInstance` (services/master/cleaner.go, lines
    104-131) and its fan-out over one pool (lines 134-142).  The liveness probes, the
    registry removal and the directory lookup are not modelled: the probe's verdict is an
    input and the calls the source makes are returned as actions, in order. */
module Inspection {

  /** Pool names (their text lives in the types package, which is not part of this model). */
  const GenDNS: string := "gendns"
  const AppMaker: string := "appmaker"

  /** The datagram probe for the name-resolution pool, the connection probe otherwise. */
  datatype Probe = Datagram | Connection

  datatype Action =
    | Remove(pool: string, address: string)   // deregister the instance from its pool
    | RejectAddress(address: string)          // log an address without a ':'
    | RescheduleHost(host: string)            // look up the host's apps and reschedule them

  function ProbeFor(pool: string): (probe: Probe)
  {
    if pool == GenDNS then Datagram else Connection
  }

  /** The text before the first ':' of `s` (all of `s` when it has none). */
  function HostPart(s: string): (host: string)
    ensures host <= s
    ensures ':' !in host
    ensures ':' in s ==> |host| < |s| && s[|host|] == ':'
  {
    if |s| == 0 || s[0] == ':' then [] else [s[0]] + HostPart(s[1..])
  }

  /** The segments of `s` between ':' separators, as a string split yields them. */
  function Split(s: string): (parts: seq<string>)
    ensures |parts| >= 1
  {
    if |s| == 0 then [[]]
    else if s[0] == ':' then [[]] + Split(s[1..])
    else var rest := Split(s[1..]); [[s[0]] + rest[0]] + rest[1..]
  }

  /** The host part is the first segment of the split address, as line 124 takes it. */
  lemma {:induction false} HostPartIsFirstSegment(s: string)
    ensures HostPart(s) == Split(s)[0]
  {
    if |s| > 0 && s[0] != ':' {
      HostPartIsFirstSegment(s[1..]);
    }
  }

  /** An address with a ':' is its host part, the ':' and the rest. */
  lemma HostPartRoundTrip(s: string)
    requires ':' in s
    ensures s == HostPart(s) + [':'] + s[|HostPart(s)| + 1..]
  {
  }

  /** The actions inspecting instance `address` of `pool` takes, given the verdict
      `alive(p)` of probe `p` on it. */
  function Inspect(pool: string, address: string, alive: Probe -> bool): (actions: seq<Action>)
    ensures alive(ProbeFor(pool)) ==> actions == []
    ensures !alive(ProbeFor(pool)) ==> |actions| >= 1 && actions[0] == Remove(pool, address)
    ensures pool != AppMaker ==> forall a :: a in actions ==> !a.RescheduleHost?
    ensures pool != AppMaker && !alive(ProbeFor(pool)) ==> actions == [Remove(pool, address)]
    ensures pool == AppMaker && !alive(Connection) && ':' !in address ==>
              actions == [Remove(pool, address), RejectAddress(address)]
    ensures pool == AppMaker && !alive(Connection) && ':' in address ==>
              actions == [Remove(pool, address), RescheduleHost(Split(address)[0])]
  {
    if pool == GenDNS then
      if !alive(Datagram) then [Remove(pool, address)] else []
    else if !alive(Connection) then
      if pool == AppMaker then
        if ':' !in address then [Remove(pool, address), RejectAddress(address)]
        else
          HostPartIsFirstSegment(address);
          [Remove(pool, address), RescheduleHost(HostPart(address))]
      else [Remove(pool, address)]
    else []
  }

  /** Inspecting every listed instance of a pool (lines 139-141); `probes(a)` is the
      probe verdict on instance `a`. */
  function InspectPool(pool: string, instances: seq<string>, probes: string -> Probe -> bool)
    : (decisions: seq<seq<Action>>)
    ensures |decisions| == |instances|
  {
    if |instances| == 0 then []
    else InspectPool(pool, instances[..|instances| - 1], probes)
           + [Inspect(pool, instances[|instances| - 1], probes(instances[|instances| - 1]))]
  }

  /** Each instance's decision depends on its own address and probe verdict only: what is
      found for the other instances of the pool does not change it. */
  lemma {:induction false} PoolIsolation(pool: string, instances: seq<string>,
                                         probes: string -> Probe -> bool, i: nat)
    requires i < |instances|
    ensures InspectPool(pool, instances, probes)[i] == Inspect(pool, instances[i], probes(instances[i]))
  {
    var n := |instances| - 1;
    if i < n {
      PoolIsolation(pool, instances[..n], probes, i);
    }
  }
}

=== FILE: planner.dfy ===
/** The water-filling planner of `rescheduleApplications` (services/master/cleaner.go):
    given the scores of a snapshot of candidate instances and the number `m` of orphaned
    applications, it raises a `level` and charges candidates in prefix scans until no
    application is left to place.  All state is local scratch: nothing is written back. */
module Planner {
  import opened Sums

  /** The scratch state of one planning call: the tracked scores (scoreArray), the
      allotments (distributionArray), the level, and the apps still to place
      (deployedApps). */
  datatype PlanState = PlanState(scores: seq<int>, alloc: seq<int>, level: int, remaining: int)

  /** The state before the first pass: every allotment zero, the level at the first
      candidate's score, all `m` applications still to place. */
  function Start(scores: seq<int>, m: nat): (s: PlanState)
    requires |scores| >= 1
  {
    PlanState(scores, seq(|scores|, _ => 0), scores[0], m)
  }

  /** Candidate `idx` takes one application: its tracked score and allotment grow by one. */
  function Charge(s: PlanState, idx: nat): (s': PlanState)
    requires |s.alloc| == |s.scores| && idx < |s.scores|
  {
    s.(scores := s.scores[idx := s.scores[idx] + 1],
       alloc := s.alloc[idx := s.alloc[idx] + 1],
       remaining := s.remaining - 1)
  }

  /** The inner `for idx` scan from candidate `idx` on: a candidate above the level raises
      the level by one and ends the pass; any other candidate is charged.  The scan never
      looks at `remaining`. */
  function Scan(s: PlanState, idx: nat): (s': PlanState)
    requires |s.alloc| == |s.scores| && idx <= |s.scores|
    decreases |s.scores| - idx
  {
    if idx == |s.scores| then s
    else if s.level < s.scores[idx] then s.(level := s.level + 1)
    else Scan(Charge(s, idx), idx + 1)
  }

  /** The shape every pass keeps, which also bounds the first candidate's score to the
      level: this is what makes the outer loop terminate. */
  ghost predicate Bracketed(s: PlanState)
  {
    && |s.alloc| == |s.scores| >= 1
    && s.level <= s.scores[0] <= s.level + 1
  }

  /** The termination measure of the outer loop. */
  function Measure(s: PlanState): (n: nat)
    requires Bracketed(s)
  {
    if s.remaining > 0 then 2 * s.remaining + (s.scores[0] - s.level) else 0
  }

  /** The outer `for deployedApps > 0` loop: passes until nothing remains to place. */
  function Run(s: PlanState): (s': PlanState)
    requires Bracketed(s)
    decreases Measure(s)
  {
    if s.remaining <= 0 then s
    else
      PassShrinks(s);
      Run(Scan(s, 0))
  }

  /** The first index at or after `from` whose score is above `level`, or |scores|. */
  function FirstAbove(scores: seq<int>, level: int, from: nat): (b: nat)
    requires from <= |scores|
    ensures from <= b <= |scores|
    ensures forall i :: from <= i < b ==> scores[i] <= level
    ensures b < |scores| ==> level < scores[b]
    decreases |scores| - from
  {
    if from == |scores| then from
    else if level < scores[from] then from
    else FirstAbove(scores, level, from + 1)
  }

  /** `a` with one added to each of its first `b` entries. */
  function Bump(a: seq<int>, b: nat): (bumped: seq<int>)
    requires b <= |a|
  {
    seq(|a|, i requires 0 <= i < |a| => if i < b then a[i] + 1 else a[i])
  }

  /** The first `b` candidates charged, the level untouched. */
  function ChargePrefix(s: PlanState, b: nat): (s': PlanState)
    requires |s.alloc| == |s.scores| && b <= |s.scores|
  {
    s.(scores := Bump(s.scores, b), alloc := Bump(s.alloc, b), remaining := s.remaining - b)
  }

  /** One pass in closed form: the first `b` candidates charged, and the level one higher
      exactly when the pass stopped before the last candidate. */
  function PassResult(s: PlanState, b: nat): (s': PlanState)
    requires |s.alloc| == |s.scores| && b <= |s.scores|
  {
    ChargePrefix(s, b).(level := if b < |s.scores| then s.level + 1 else s.level)
  }

  lemma {:induction false} ScanFrom(s: PlanState, idx: nat)
    requires |s.alloc| == |s.scores|
    requires idx <= FirstAbove(s.scores, s.level, 0)
    ensures Scan(ChargePrefix(s, idx), idx) == PassResult(s, FirstAbove(s.scores, s.level, 0))
    decreases |s.scores| - idx
  {
    var b := FirstAbove(s.scores, s.level, 0);
    var c := ChargePrefix(s, idx);
    if idx == |s.scores| {
    } else if idx == b {
      assert c.scores[idx] == s.scores[idx];
    } else {
      assert c.scores[idx] == s.scores[idx] <= s.level;
      assert Charge(c, idx) == ChargePrefix(s, idx + 1);
      ScanFrom(s, idx + 1);
    }
  }

  /** Each pass charges a contiguous prefix of the candidates: exactly those before the
      first one whose tracked score is above the level; the level rises by one exactly
      when such a candidate stopped the pass. */
  lemma ScanChargesPrefix(s: PlanState)
    requires |s.alloc| == |s.scores|
    ensures var b := FirstAbove(s.scores, s.level, 0);
            var r := Scan(s, 0);
            && r.scores == Bump(s.scores, b)
            && r.alloc == Bump(s.alloc, b)
            && r.remaining == s.remaining - b
            && r.level == (if b < |s.scores| then s.level + 1 else s.level)
  {
    assert ChargePrefix(s, 0) == s;
    ScanFrom(s, 0);
  }

  /** A pass keeps the bracket and shrinks the measure, so the outer loop terminates. */
  lemma PassShrinks(s: PlanState)
    requires Bracketed(s) && s.remaining > 0
    ensures Bracketed(Scan(s, 0))
    ensures Measure(Scan(s, 0)) < Measure(s)
  {
    ScanChargesPrefix(s);
    var b := FirstAbove(s.scores, s.level, 0);
    if b > 0 {
      assert s.scores[0] == s.level;
    }
  }

  /** Sum(Bump(a, b)) counts the `b` added units. */
  lemma {:induction false} SumBump(a: seq<int>, b: nat, n: nat)
    requires b <= |a| && n <= |a|
    ensures Sum(Bump(a, b)[..n]) == Sum(a[..n]) + (if n < b then n else b)
  {
    if n > 0 {
      SumBump(a, b, n - 1);
      SumPrefixStep(Bump(a, b), n - 1);
      SumPrefixStep(a, n - 1);
    }
  }

  /** Per-candidate accounting: tracked score = snapshot score + allotment, and the
      allotments are non-negative and non-increasing along the candidate order. */
  ghost predicate Tracked(init: seq<int>, s: PlanState)
  {
    && |init| >= 1 && |s.scores| == |init| && |s.alloc| == |init|
    && (forall i :: 0 <= i < |init| ==> s.scores[i] == init[i] + s.alloc[i])
    && (forall i :: 0 <= i < |init| ==> s.alloc[i] >= 0)
    && (forall i, j :: 0 <= i < j < |init| ==> s.alloc[j] <= s.alloc[i])
  }

  /** The allotments account for every application placed, and no pass has placed more
      than one application per candidate beyond `m`. */
  ghost predicate Counted(m: nat, s: PlanState)
  {
    && Sum(s.alloc) == m - s.remaining
    && s.remaining > -|s.scores|
  }

  /** The level never falls below its start, every charged candidate sits at most one
      above it, and the first candidate is at it or one above. */
  ghost predicate Levelled(init: seq<int>, s: PlanState)
  {
    && |init| >= 1 && |s.scores| == |init| && |s.alloc| == |init|
    && init[0] <= s.level
    && (forall i :: 0 <= i < |init| && s.alloc[i] > 0 ==> s.scores[i] <= s.level + 1)
    && s.level <= s.scores[0] <= s.level + 1
  }

  /** The facts that hold of the scratch state at the head of every pass, for the
      snapshot scores `init` and `m` applications. */
  ghost predicate Accounted(init: seq<int>, m: nat, s: PlanState)
  {
    Tracked(init, s) && Counted(m, s) && Levelled(init, s)
  }

  lemma StartAccounted(init: seq<int>, m: nat)
    requires |init| >= 1
    ensures Accounted(init, m, Start(init, m))
  {
    SumZeros(|init|);
  }

  lemma PrefixKeepsTracked(init: seq<int>, s: PlanState, b: nat)
    requires Tracked(init, s) && b <= |init|
    ensures Tracked(init, PassResult(s, b))
  {
  }

  lemma PrefixKeepsCounted(m: nat, s: PlanState, b: nat)
    requires Counted(m, s) && |s.alloc| == |s.scores| && b <= |s.scores| && s.remaining > 0
    ensures Counted(m, PassResult(s, b))
  {
    var r := PassResult(s, b);
    SumBump(s.alloc, b, |s.alloc|);
    assert s.alloc[..|s.alloc|] == s.alloc;
    assert r.alloc[..|s.alloc|] == r.alloc;
  }

  lemma PrefixKeepsLevelled(init: seq<int>, s: PlanState, b: nat)
    requires Levelled(init, s) && b <= |init|
    requires forall i :: 0 <= i < b ==> s.scores[i] <= s.level
    requires b < |init| ==> s.level < s.scores[b]
    ensures Levelled(init, PassResult(s, b))
  {
  }

  /** One pass (with applications still to place) keeps every accounting fact. */
  lemma PassKeepsAccounted(init: seq<int>, m: nat, s: PlanState)
    requires Accounted(init, m, s) && s.remaining > 0
    ensures Accounted(init, m, Scan(s, 0))
  {
    ScanChargesPrefix(s);
    var b := FirstAbove(s.scores, s.level, 0);
    PrefixKeepsTracked(init, s, b);
    PrefixKeepsCounted(m, s, b);
    PrefixKeepsLevelled(init, s, b);
  }

  /** Every pass of the outer loop keeps the accounting facts, and the loop ends with
      nothing (or less than nothing) left to place. */
  lemma {:induction false} RunKeepsAccounted(init: seq<int>, m: nat, s: PlanState)
    requires Accounted(init, m, s)
    ensures Accounted(init, m, Run(s))
    ensures Run(s).remaining <= 0
    decreases Measure(s)
  {
    if s.remaining > 0 {
      PassKeepsAccounted(init, m, s);
      PassShrinks(s);
      RunKeepsAccounted(init, m, Scan(s, 0));
    }
  }

  /** What the accounting facts give once the outer loop has stopped. */
  lemma FinishedPlan(init: seq<int>, m: nat, s: PlanState)
    requires Accounted(init, m, s) && s.remaining <= 0
    ensures m >= 1 ==> s.alloc[0] >= 1
  {
    if m >= 1 {
      assert s.alloc[..0] == [] && s.alloc[..|s.alloc|] == s.alloc;
      var t := SumGrowthHasPositive(s.alloc, 0, |s.alloc|);
    }
  }

  /** Scores in ascending order, as the registry's least-loaded query returns them. */
  ghost predicate Ascending(s: seq<int>)
  {
    forall i, j :: 0 <= i < j < |s| ==> s[i] <= s[j]
  }

  /** A pass keeps the tracked scores ascending: the charged prefix sat at or below the
      level, everything after it above, so adding one to the prefix keeps the order. */
  lemma PassKeepsAscending(s: PlanState)
    requires |s.alloc| == |s.scores| && Ascending(s.scores)
    ensures Ascending(Scan(s, 0).scores)
  {
    ScanChargesPrefix(s);
  }

  /** The whole outer loop keeps the tracked scores ascending. */
  lemma {:induction false} RunKeepsAscending(s: PlanState)
    requires Bracketed(s) && Ascending(s.scores)
    ensures Ascending(Run(s).scores)
    decreases Measure(s)
  {
    if s.remaining > 0 {
      PassShrinks(s);
      PassKeepsAscending(s);
      RunKeepsAscending(Scan(s, 0));
    }
  }

  /** Load levelling, for a snapshot in ascending score order: when the loop stops, no
      candidate is below the level, and every candidate that received applications ends
      at most one above every other candidate. */
  lemma Balanced(init: seq<int>, m: nat)
    requires |init| >= 1 && Ascending(init)
    ensures var r := Run(Start(init, m));
            && |r.scores| == |init| && |r.alloc| == |init|
            && (forall i :: 0 <= i < |init| ==> r.level <= r.scores[i])
            && (forall i, j :: 0 <= i < |init| && 0 <= j < |init| && r.alloc[i] > 0 ==>
                  r.scores[i] <= r.scores[j] + 1)
  {
    StartAccounted(init, m);
    RunKeepsAccounted(init, m, Start(init, m));
    RunKeepsAscending(Start(init, m));
  }

  /** One pass of the inner scan (lines 54-63), as the source writes it: charge each
      candidate at or below `level`; at the first one above it, raise the level and break. */
  method ScanPass(tracked: seq<int>, alloc: seq<int>, level: int, remaining: int)
    returns (tracked': seq<int>, alloc': seq<int>, level': int, remaining': int)
    requires |alloc| == |tracked|
    ensures PlanState(tracked', alloc', level', remaining') == Scan(PlanState(tracked, alloc, level, remaining), 0)
    ensures level' == level || level' == level + 1
    ensures |tracked'| == |alloc'| == |tracked|
  {
    tracked', alloc', level', remaining' := tracked, alloc, level, remaining;
    var idx := 0;
    while idx < |tracked'|
      invariant 0 <= idx <= |tracked'| == |alloc'| == |tracked|
      invariant level' == level
      invariant Scan(PlanState(tracked', alloc', level', remaining'), idx)
             == Scan(PlanState(tracked, alloc, level, remaining), 0)
    {
      if level' < tracked'[idx] {
        level' := level' + 1;
        break;
      }
      remaining' := remaining' - 1;
      tracked' := tracked'[idx := tracked'[idx] + 1];
      alloc' := alloc'[idx := alloc'[idx] + 1];
      idx := idx + 1;
    }
  }

  /** The planning loops of lines 49-64: the outer loop runs while applications remain,
      each pass scanning the candidates from the first.  The scan never re-checks
      `remaining`, so the last pass may overshoot: the allotments sum to at least `m`,
      and to more than `m` exactly when `remaining` ends below zero. */
  method PlanAllotment(scores: seq<int>, m: nat)
    returns (alloc: seq<int>, tracked: seq<int>, level: int, remaining: int)
    requires |scores| >= 1
    ensures PlanState(tracked, alloc, level, remaining) == Run(Start(scores, m))
    ensures |alloc| == |tracked| == |scores|
    ensures forall i :: 0 <= i < |scores| ==> tracked[i] == scores[i] + alloc[i]
    ensures forall i :: 0 <= i < |scores| ==> alloc[i] >= 0
    ensures forall i, j :: 0 <= i < j < |scores| ==> alloc[j] <= alloc[i]
    ensures m >= 1 ==> alloc[0] >= 1
    ensures scores[0] <= level
    ensures forall i :: 0 <= i < |scores| && alloc[i] > 0 ==> tracked[i] <= level + 1
    ensures Sum(alloc) == m - remaining
    ensures -|scores| < remaining <= 0
    ensures Ascending(scores) ==> forall i :: 0 <= i < |scores| ==> level <= tracked[i]
    ensures Ascending(scores) ==>
              forall i, j :: 0 <= i < |scores| && 0 <= j < |scores| && alloc[i] > 0 ==>
                tracked[i] <= tracked[j] + 1
  {
    tracked := scores;
    alloc := seq(|scores|, _ => 0);
    remaining := m;
    level := scores[0];
    StartAccounted(scores, m);
    while remaining > 0
      invariant Accounted(scores, m, PlanState(tracked, alloc, level, remaining))
      invariant Run(PlanState(tracked, alloc, level, remaining)) == Run(Start(scores, m))
      decreases Measure(PlanState(tracked, alloc, level, remaining))
    {
      ghost var pass := PlanState(tracked, alloc, level, remaining);
      PassKeepsAccounted(scores, m, pass);
      PassShrinks(pass);
      tracked, alloc, level, remaining := ScanPass(tracked, alloc, level, remaining);
    }
    FinishedPlan(scores, m, PlanState(tracked, alloc, level, remaining));
    if Ascending(scores) {
      Balanced(scores, m);
    }
  }

  /** Scores [0, 1, 1] with three applications: the allotments [2, 1, 1] place four. */
  lemma OvershootExample()
    ensures Run(Start([0, 1, 1], 3)) == PlanState([2, 2, 2], [2, 1, 1], 1, -1)
  {
  }

  /** Scores [2, 3, 5] with four applications: allotments [3, 2, 0], final scores
      [5, 5, 5], one slot more than there are applications. */
  lemma ThreeLevelsExample()
    ensures Run(Start([2, 3, 5], 4)) == PlanState([5, 5, 5], [3, 2, 0], 5, -1)
  {
  }
}

=== FILE: reschedule.dfy ===
/** `rescheduleApplications` end to end (services/master/cleaner.go, lines 19-99): the
    early returns, the planning loops over the registry snapshot, and the dispatch walk. */
module Reschedule {
  import opened Wrappers
  import opened Sums
  import opened Planner
  import opened Dispatch

  /** One entry of the registry's least-loaded snapshot: an instance URL and its score. */
  datatype Candidate = Candidate(url: string, score: int)

  /** What one rescheduling call does. */
  datatype Outcome =
    | NothingToDo   // no orphaned applications: returns before asking the registry
    | FetchFailed   // the registry could not be read: logged, nothing rescheduled
    | NoInstances   // the snapshot is empty: logged, nothing rescheduled
    | Dispatched(alloc: seq<int>, targets: seq<nat>, dests: seq<string>, requests: seq<Request>)

  function Scores(cands: seq<Candidate>): (scores: seq<int>)
  {
    seq(|cands|, i requires 0 <= i < |cands| => cands[i].score)
  }

  function Urls(cands: seq<Candidate>): (urls: seq<string>)
  {
    seq(|cands|, i requires 0 <= i < |cands| => cands[i].url)
  }

  /** Rescheduling the applications `apps` of a lost instance.  `snapshot` is the
      registry's reply to the least-loaded query (None when the query fails) and
      `marshal` the record serialiser, which may fail.  The plan is computed on a local
      copy of the scores; every application takes one slot of the plan in input order,
      and every well-formed one yields one recreate request on its slot's instance. */
  method RescheduleApplications(apps: seq<Record>, snapshot: Option<seq<Candidate>>,
                                marshal: Record -> Option<Bytes>)
    returns (o: Outcome)
    ensures o.NothingToDo? <==> |apps| == 0
    ensures o.FetchFailed? <==> |apps| > 0 && snapshot.None?
    ensures o.NoInstances? <==> |apps| > 0 && snapshot.Some? && |snapshot.value| == 0
    ensures o.Dispatched? ==>
              && snapshot.Some? && |snapshot.value| >= 1
              && o.alloc == Run(Start(Scores(snapshot.value), |apps|)).alloc
              && Sum(o.alloc) >= |apps|
              && |o.targets| == |apps|
              && Covers(o.alloc, o.targets) && Ordered(o.targets)
              && |o.dests| == |apps|
              && (forall p :: 0 <= p < |apps| ==>
                    o.targets[p] < |snapshot.value| && o.dests[p] == snapshot.value[o.targets[p]].url)
              && o.requests == Requests(apps, o.dests, marshal)
  {
    if |apps| == 0 {
      return NothingToDo;
    }
    if snapshot.None? {
      return FetchFailed;
    }
    var cands := snapshot.value;
    if |cands| == 0 {
      return NoInstances;
    }
    var alloc, tracked, level, remaining := PlanAllotment(Scores(cands), |apps|);
    var requests, targets, dests := Walk(apps, Urls(cands), alloc, marshal);
    return Dispatched(alloc, targets, dests, requests);
  }

  /** Scores [2, 3, 5] and four applications: the plan allots [3, 2, 0], and the walk
      sends three applications to the first candidate, one to the second and none to
      the third. */
  lemma ThreeLevelsDispatch(targets: seq<nat>)
    requires |targets| == 4
    requires Covers(Run(Start([2, 3, 5], 4)).alloc, targets)
    ensures Received(targets, 0) == 3 && Received(targets, 1) == 1 && Received(targets, 2) == 0
  {
    ThreeLevelsExample();
    WalkExample(targets);
    var t: seq<nat> := [0, 0, 0, 1];
    assert t[..3] == [0, 0, 0] && [0, 0, 0][..2] == [0, 0] && [0, 0][..1] == [0] && [0][..0] == [];
    forall c: nat | c <= 2
      ensures Received(t, c) == (if c == 0 then 3 else if c == 1 then 1 else 0)
    {
      assert Received([0], c) == (if c == 0 then 1 else 0);
      assert Received([0, 0], c) == (if c == 0 then 2 else 0);
      assert Received([0, 0, 0], c) == (if c == 0 then 3 else 0);
    }
  }
}

=== FILE: sums.dfy ===
/** Sums of integer sequences and the facts about prefix sums the planner and the
    dispatch walk rely on. */
module Sums {

  /** The sum of `s`, peeled from the back so that extending a prefix adds one term. */
  function Sum(s: seq<int>): (total: int)
  {
    if |s| == 0 then 0 else Sum(s[..|s| - 1]) + s[|s| - 1]
  }

  ghost predicate NonNegative(s: seq<int>)
  {
    forall i :: 0 <= i < |s| ==> s[i] >= 0
  }

  /** Extending a prefix by one element adds that element to the sum. */
  lemma SumPrefixStep(s: seq<int>, i: nat)
    requires i < |s|
    ensures Sum(s[..i + 1]) == Sum(s[..i]) + s[i]
  {
    assert s[..i + 1][..i] == s[..i];
  }

  /** Prefix sums of a non-negative sequence never decrease. */
  lemma {:induction false} SumPrefixMonotone(s: seq<int>, i: nat, j: nat)
    requires NonNegative(s)
    requires i <= j <= |s|
    ensures Sum(s[..i]) <= Sum(s[..j])
    decreases j - i
  {
    if i < j {
      SumPrefixMonotone(s, i, j - 1);
      SumPrefixStep(s, j - 1);
    }
  }

  /** A prefix sum that is smaller than a longer one has a positive element in between. */
  lemma {:induction false} SumGrowthHasPositive(s: seq<int>, i: nat, j: nat) returns (t: nat)
    requires i <= j <= |s|
    requires Sum(s[..i]) < Sum(s[..j])
    ensures i <= t < j && s[t] > 0
    decreases j - i
  {
    SumPrefixStep(s, j - 1);
    if s[j - 1] > 0 {
      t := j - 1;
    } else {
      t := SumGrowthHasPositive(s, i, j - 1);
    }
  }

  /** A sequence of zeros sums to zero. */
  lemma {:induction false} SumZeros(n: nat)
    ensures Sum(seq(n, _ => 0)) == 0
  {
    if n > 0 {
      assert seq(n, _ => 0)[..n - 1] == seq(n - 1, _ => 0);
      SumZeros(n - 1);
    }
  }
}

=== FILE: wrappers.dfy ===
/** The optional-value datatype used for fallible lookups and conversions. */
module Wrappers {

  datatype Option<+T> = None | Some(value: T)
}
